=== FILE: README.md ===
# Metadata list view: a Dafny model

This project models the view-state of `MetadataListComponent`, the Angular
component that lists "metadata" records (title, publication date-time, image,
feeds, authors, active flag) fetched from a REST backend. It pages the list
client-side four records at a time, switches between the active and inactive
records, creates records from a URL, activates and deactivates them, and edits
one record at a time in a buffer. It also renders titles, feeds and authors
in shortened form.

Modules:

- `Types`: the records (`Metadata`, whose `feeds`/`authors` are a `Field` that
  is either raw JSON text or, after a submit, the parsed array), the create
  request, the gateway calls (`ServiceCall`), request outcomes (`Fetch`,
  `Outcome`) and the kinds of notice shown to the user.
- `Text`: JavaScript's `split` on one character, `join` and `substring(0, n)`.
  `Split` and joining with the separator are proved inverse in both
  directions (for a non-empty list of separator-free pieces).
- `Pagination`: `slice` with JavaScript's rules for negative and out-of-range
  bounds, the page window, and the page count as integer ceiling division.
  `Page` never holds more than `itemsPerPage` records, for every page number.
  Lemmas give the window for pages from 1 up, the sizes of full, last and
  past-the-end pages, and the fact that each index lies on exactly one page
  numbered from 1 up.
- `Display`: `truncateTitle`, `displayFeeds` and `displayAuthors`, with their
  placeholders and their 30 and 22 character limits.
- `Edit`: `formatDate`/`formatTime`, `find` by id, and `PrepareUpdate`. This
  function states where a submit of the edit form stops: "no changes", a
  parse failure, or ready to send. The buffer it returns is the one the
  component is left with.
- `Component`: the class `MetadataListComponent`, one field per component
  field, and one method per component method that changes state or calls
  the gateway; the pure helpers (`formatDate`, `formatTime`,
  `truncateTitle`, `displayFeeds`, `displayAuthors`) are functions in `Edit`
  and `Display`, and `ngOnInit` is left out. A request to the gateway is an
  outcome parameter that the call completes with. A confirmation dialog is a
  boolean answer. Each action returns the gateway calls it made, in order,
  and the kind of notice it ended with. `Valid()` says the visible page is
  always the current page's window of the list.

Behaviour of the component as written that the proofs make explicit:

- An untouched edit reports "no changes" only when the stored date-time has
  exactly one `T` and at most five characters after it. The record's own
  `publicationTime` must also already hold that `HH:MM`. A date stored with
  seconds is always treated as changed (`Edit.UntouchedSubmitIsNoChange`).
- A submit writes the parsed feeds and authors into the buffer in place.
  After a cancelled confirmation or a failed update, the next submit of the
  same buffer, and every later one, stops before the update call: the feeds
  stay parsed and cannot be parsed again (`Edit.ResubmitNeverReady`,
  `Edit.ParsedFeedsNeverReady`, `Component.CancelThenResubmit`). Every
  submit also appends another `T` and time to the date, keeping the old date
  in front (`Edit.Resubmitted`).
- Feeds text that parses to an empty array without being the literal `[]`
  shows no lines rather than the placeholder.
- `changePage(0)` shows an empty page (`Pagination.PageZeroIsEmpty`), and a
  negative page number shows records counted back from the end of the list,
  as `slice` reads negative bounds.
- The page returns to 1 only when the reload succeeds. A failed reload after
  a toggle keeps the old list and page, with the new filter.
- Neither activation nor deactivation shows an error notice on failure.

## Model

| member | source | states |
|---|---|---|
| Text.Split | src/app/metadata/metadata-list/metadata-list.component.ts:186-193 | `split('T')` yields at least one piece, no piece contains the separator, joining the pieces with it gives the text back, and there is more than one piece exactly when the separator occurs |
| Text.Join | src/app/metadata/metadata-list/metadata-list.component.ts:276 | `join` of no parts is the empty text, and the joined text starts with the first part |
| Text.SplitJoin | src/app/metadata/metadata-list/metadata-list.component.ts:186-193 | splitting the join of separator-free parts gives the parts back: `split` inverts `join` |
| Text.SplitAfterPiece | src/app/metadata/metadata-list/metadata-list.component.ts:186-193 | splitting a separator-free piece, a separator and a rest gives the piece followed by the pieces of the rest |
| Text.FirstIndex | src/app/metadata/metadata-list/metadata-list.component.ts:187 | the position found holds the separator and no earlier position does |
| Text.SplitAtFirst | src/app/metadata/metadata-list/metadata-list.component.ts:186-193 | the first piece of the split is the text before the first separator, and the other pieces rejoin to the text after it |
| Text.Prefix | src/app/metadata/metadata-list/metadata-list.component.ts:192 | `substring(0, n)` is a prefix whose length is `n` clamped into `0..length` |
| Pagination.ClampIndex | src/app/metadata/metadata-list/metadata-list.component.ts:69 | a `slice` bound: one in `0..len` is kept, a larger one becomes `len`, a negative one counts back from the end (`len + i`), and one before the start becomes 0 |
| Pagination.Slice | src/app/metadata/metadata-list/metadata-list.component.ts:69 | `slice` gives the run of the list starting at the clamped start, of length clamped end minus clamped start, and nothing when they cross |
| Pagination.SliceLength | src/app/metadata/metadata-list/metadata-list.component.ts:69 | a slice holds at most `end - start` elements whenever `start <= end`, whatever the signs of the bounds |
| Pagination.SliceWithin | src/app/metadata/metadata-list/metadata-list.component.ts:69 | a slice holds only elements of the list, each no more often than the list does |
| Pagination.TotalPages | src/app/metadata/metadata-list/metadata-list.component.ts:77-79 | the page count is the ceiling of length over page size: `n <= r*k < n+k`, and it is 0 exactly for an empty list |
| Pagination.Page | src/app/metadata/metadata-list/metadata-list.component.ts:66-70 | the window `paginateMetadataList` slices for a page never holds more than `itemsPerPage` records, for every page number, including 0, negative and past-the-end ones |
| Pagination.PageWindow | src/app/metadata/metadata-list/metadata-list.component.ts:66-70 | for a page from 1 up, the page is the sub-list from `(page-1)*k` to `page*k`, each end clamped to the list length |
| Pagination.FirstPage | src/app/metadata/metadata-list/metadata-list.component.ts:38-70 | page 1 is the first `itemsPerPage` records, or the whole list if it is shorter |
| Pagination.PageBeforeLastIsFull | src/app/metadata/metadata-list/metadata-list.component.ts:66-79 | every page before the last holds exactly `itemsPerPage` records |
| Pagination.LastPageHoldsRemainder | src/app/metadata/metadata-list/metadata-list.component.ts:66-79 | the last page of a non-empty list holds the remaining `n - (total-1)*k` records, at least one |
| Pagination.PageAfterLastIsEmpty | src/app/metadata/metadata-list/metadata-list.component.ts:66-79 | pages past the last are empty |
| Pagination.IndexInOnePage | src/app/metadata/metadata-list/metadata-list.component.ts:66-79 | each index `i` of the list is in the window of page `i/k+1`, a page between 1 and the page count, at offset `i%k` |
| Pagination.PageNumberUnique | src/app/metadata/metadata-list/metadata-list.component.ts:66-79 | among pages from 1 up, the only page whose window holds index `i` is page `i/k+1` |
| Pagination.PageZeroIsEmpty | src/app/metadata/metadata-list/metadata-list.component.ts:66-70 | page 0's window is empty, since its end bound is 0 |
| Display.TruncateTitle | src/app/metadata/metadata-list/metadata-list.component.ts:243-245 | a text within the limit comes back unchanged; a longer one becomes its first `maxLength` characters (none for a negative limit) followed by `...`, `maxLength + 3` long |
| Display.Names | src/app/metadata/metadata-list/metadata-list.component.ts:274 | one name per parsed author object, in order, an absent name as empty text |
| Display.DisplayFeeds | src/app/metadata/metadata-list/metadata-list.component.ts:247-266 | empty text or `[]` gives `["Sin Feeds"]`; a parse failure, or a `null` entry or one without a `link`, gives `["Invalid feeds format"]`; otherwise one line per parsed feed, its link truncated at 30, each line at most 33 long |
| Display.DisplayAuthors | src/app/metadata/metadata-list/metadata-list.component.ts:268-285 | empty text or `[]` gives `"Sin Autores"`; a parse failure or a `null` entry gives `"Invalid authors format"`; otherwise the names joined by `", "` and truncated at 22, at most 25 long |
| Display.LinklessFeedIsInvalid | src/app/metadata/metadata-list/metadata-list.component.ts:251-265 | a parsed feed object without a `link` turns the whole list into `["Invalid feeds format"]` |
| Display.FeedsEmptyOnlyForParsedEmptyList | src/app/metadata/metadata-list/metadata-list.component.ts:247-261 | the rendered feed list is empty exactly when the text is not a placeholder case and parses to no entries |
| Display.TwoShortAuthors | src/app/metadata/metadata-list/metadata-list.component.ts:268-280 | authors Ann and Bo render as `"Ann, Bo"` |
| Display.ShortFeedShownInFull | src/app/metadata/metadata-list/metadata-list.component.ts:247-261 | a single feed `http://a.com` renders as `["http://a.com"]` |
| Edit.FormatDate | src/app/metadata/metadata-list/metadata-list.component.ts:186-188 | the date part is the longest prefix without `T`: all of the text when it has none, otherwise everything before the first `T` |
| Edit.FormatTime | src/app/metadata/metadata-list/metadata-list.component.ts:191-193 | for a text containing `T`, the time part is the longest text of at most 5 characters without `T` that follows the first `T` |
| Edit.DateTimeRoundTrip | src/app/metadata/metadata-list/metadata-list.component.ts:186-199 | splitting a date-time and rejoining it with `T` restores it exactly when it has one `T` and at most 5 characters after it |
| Edit.Find | src/app/metadata/metadata-list/metadata-list.component.ts:172 | `find` by id yields the first record with that id, and nothing exactly when no record has it |
| Edit.EditBuffer | src/app/metadata/metadata-list/metadata-list.component.ts:175-179 | the edit buffer is the record with only the date and time changed: the date is the text before the first `T`, the time the longest run of at most 5 characters without `T` after it |
| Edit.Rejoin | src/app/metadata/metadata-list/metadata-list.component.ts:199 | a submit changes only the date, which becomes the date, a `T` and the time |
| Edit.RejoinThenSplit | src/app/metadata/metadata-list/metadata-list.component.ts:186-199 | splitting a rejoined date gives back a date without `T`, and the time when it has at most 5 characters and no `T` |
| Edit.ParseField | src/app/metadata/metadata-list/metadata-list.component.ts:208-209 | a text field parses as the parser says; a field already holding a parsed array never parses |
| Edit.PrepareUpdate | src/app/metadata/metadata-list/metadata-list.component.ts:195-214 | a submit always rejoins the date and changes nothing but the date, feeds and authors; it stops with "no changes", the buffer just rejoined, exactly when that equals the snapshot; it is ready to send exactly when it changed and both feeds and authors parse, and then both hold their parsed arrays; on a parse failure the authors are untouched and the feeds hold their parsed array exactly when they parsed |
| Edit.UntouchedSubmitIsNoChange | src/app/metadata/metadata-list/metadata-list.component.ts:170-204 | opening a record and submitting it untouched reports "no changes" exactly when its date has one `T`, at most 5 characters after it, and its time field already equals that time |
| Edit.ResubmitNeverReady | src/app/metadata/metadata-list/metadata-list.component.ts:199-227 | submitting again a buffer that was ready to send never makes it ready to send again |
| Edit.SubmitAppendsTime | src/app/metadata/metadata-list/metadata-list.component.ts:199 | one submit keeps the time and appends `T` and the time to the date |
| Edit.Resubmitted | src/app/metadata/metadata-list/metadata-list.component.ts:195-214 | after `n` further submits the time is unchanged and the date is the old date followed by `n` copies of `T` and the time, so it grows by `n * (1 + |time|)` characters |
| Edit.ParsedFeedsNeverReady | src/app/metadata/metadata-list/metadata-list.component.ts:195-214 | a buffer whose feeds hold their parsed array keeps them through any number of submits, and none of those submits is ready to send |
| Component.ListCall | src/app/metadata/metadata-list/metadata-list.component.ts:39-62 | the list request is `findAllActive` exactly when the filter shows active records, and `findAllInactive` otherwise |
| Component.CreateRequest | src/app/metadata/metadata-list/metadata-list.component.ts:96-99 | the create body is the URL with an empty `metadata` object under `features` |
| Component.MetadataListComponent.constructor | src/app/metadata/metadata-list/metadata-list.component.ts:12-30 | the empty list on page 1, active filter, forms closed, empty URL, blank edit buffer and snapshot |
| Component.MetadataListComponent.PaginateMetadataList | src/app/metadata/metadata-list/metadata-list.component.ts:66-70 | the visible page becomes the current page's window of the list: at most 4 records, all from the list |
| Component.MetadataListComponent.ChangePage | src/app/metadata/metadata-list/metadata-list.component.ts:72-75 | sets the page and shows its window, the clamped sub-list `[(p-1)*4, p*4)` for a page from 1 up; list, filter and edit state are untouched |
| Component.MetadataListComponent.TotalPages | src/app/metadata/metadata-list/metadata-list.component.ts:77-79 | the ceiling of the list length over 4, and 0 exactly for an empty list |
| Component.MetadataListComponent.LoadMetadata | src/app/metadata/metadata-list/metadata-list.component.ts:38-64 | requests the list matching the filter; on success the list is the fetched data, the page is 1 and the first four records show; on failure nothing changes |
| Component.MetadataListComponent.ToggleActiveInactive | src/app/metadata/metadata-list/metadata-list.component.ts:81-84 | negates the filter, then loads from the list matching the new filter |
| Component.MetadataListComponent.AddMetadata | src/app/metadata/metadata-list/metadata-list.component.ts:86-88 | opens the create form |
| Component.MetadataListComponent.SubmitMetadata | src/app/metadata/metadata-list/metadata-list.component.ts:90-112 | an empty URL makes no call, warns and changes nothing; otherwise it sends exactly `{url, features: {metadata: {}}}`; on success it clears the URL and reloads, on failure it keeps everything and reports an error |
| Component.MetadataListComponent.ConfirmActivateMetadata | src/app/metadata/metadata-list/metadata-list.component.ts:114-129 | a declined confirmation makes no call and changes nothing; an accepted one activates as below |
| Component.MetadataListComponent.ConfirmDeactivateMetadata | src/app/metadata/metadata-list/metadata-list.component.ts:131-146 | a declined confirmation makes no call and changes nothing; an accepted one deactivates as below |
| Component.MetadataListComponent.ActivateMetadata | src/app/metadata/metadata-list/metadata-list.component.ts:148-157 | sends the activation; success reloads and reports success, failure changes nothing and shows nothing |
| Component.MetadataListComponent.DeactivateMetadata | src/app/metadata/metadata-list/metadata-list.component.ts:159-168 | sends the deactivation; success reloads and reports success, failure changes nothing and shows nothing |
| Component.MetadataListComponent.EditMetadata | src/app/metadata/metadata-list/metadata-list.component.ts:170-183 | for the first record with the id, the buffer is that record with its date split into date and time, the snapshot is the record unmodified, and the form opens; an absent id, or a date without `T`, changes nothing |
| Component.MetadataListComponent.UpdateMetadata | src/app/metadata/metadata-list/metadata-list.component.ts:195-241 | the buffer ends as `PrepareUpdate` leaves it; an update call is made only for a ready buffer after an accepted confirmation; only its success closes the form and reloads; every other path leaves the list, page and form as they were |
| Component.ToggleTwice | src/app/metadata/metadata-list/metadata-list.component.ts:81-84 | two toggles restore the filter, requesting the other list and then the original one |
| Component.CancelThenResubmit | src/app/metadata/metadata-list/metadata-list.component.ts:195-241 | after a cancelled confirmation, submitting again makes no call, whatever the user then answers |

## Left out

- The gateway (`src/app/services/metadata.service.ts`) is not modelled beyond the calls it is asked to make. URLs, HTTP verbs, `HttpClient` and the generic error message are outside the model.
- SweetAlert2 dialogs become boolean answers or notice kinds. The titles and messages of the notices are not modelled.
- Logging, `ngOnInit`, the template and routing are not modelled. The template is what passes page numbers, ids and the limit to `truncateTitle`.
- RxJS asynchrony is not modelled: every request completes before the action returns. So the race between overlapping loads, where an older response can overwrite a newer one, is not captured.
- `JSON.parse` is a parser parameter that yields a list of entries or a failure. `updateMetadata` would accept JSON that parses but is not such a list; the model counts it as a failure. An entry is `null` or an object whose `link` and `name` are strings or absent; a `link` or `name` of another JSON type (a number, an object) is not modelled.
- `JSON.stringify` equality is structural equality of records. Key order, and records from the backend that lack `publicationTime` (which would never compare equal), are not modelled.
- `Math.ceil` over floating-point division is replaced by integer ceiling division. Page numbers are integers; fractional or `NaN` pages are not modelled.
- String lengths count Dafny characters, not UTF-16 code units.
- `formatTime` throws on a date without `T`. The model has no exceptions: that `editMetadata` call leaves the state unchanged.

=== FILE: component.dfy ===
/** `MetadataListComponent`: the list view's state and the actions that
    change it. Each request to the gateway completes synchronously with the
    outcome passed in, each confirmation dialog is a boolean answer, and
    every action returns the gateway calls it made, in order, and the kind
    of notice it ended with. */
module Component {
  import opened Types
  import Pagination
  import Edit

  /** The list request that matches the active/inactive filter. */
  function ListCall(showActive: bool): (r: ServiceCall)
    ensures r.FindAllActive? <==> showActive
    ensures r.FindAllActive? || r.FindAllInactive?
  {
    if showActive then FindAllActive else FindAllInactive
  }

  /** The body `submitMetadata` sends for a URL: the URL and an empty
      `metadata` object under `features`. */
  function CreateRequest(url: string): (r: CreateMetadata)
    ensures r.url == url && r.features.metadata == map[]
  {
    CreateMetadata(url, Features(map[]))
  }

  class MetadataListComponent {
    var metadataList: seq<Metadata>
    var paginatedMetadataList: seq<Metadata>
    var showActive: bool
    var showForm: bool
    var showEditForm: bool
    var newMetadataUrl: string
    var currentPage: int
    const itemsPerPage: nat := 4
    var selectedMetadata: Metadata
    var originalMetadata: Metadata

    /** The visible page is always the current page's window of the list. */
    ghost predicate Valid()
      reads this
    {
      paginatedMetadataList == Pagination.Page(metadataList, currentPage, itemsPerPage)
    }

    /** What a list request did to the list and the page: a success replaces
        the list and goes back to page 1, a failure leaves both alone. */
    twostate predicate Loaded(response: Fetch)
      reads this
    {
      if response.Fetched? then
        && metadataList == response.data
        && currentPage == 1
        && paginatedMetadataList ==
             metadataList[..if |metadataList| < itemsPerPage then |metadataList| else itemsPerPage]
      else
        && metadataList == old(metadataList)
        && currentPage == old(currentPage)
        && paginatedMetadataList == old(paginatedMetadataList)
    }

    constructor ()
      ensures Valid()
      ensures metadataList == [] && paginatedMetadataList == []
      ensures showActive && !showForm && !showEditForm
      ensures newMetadataUrl == "" && currentPage == 1
      ensures selectedMetadata == BlankMetadata && originalMetadata == BlankMetadata
    {
      metadataList := [];
      paginatedMetadataList := [];
      showActive := true;
      showForm := false;
      showEditForm := false;
      newMetadataUrl := "";
      currentPage := 1;
      selectedMetadata := BlankMetadata;
      originalMetadata := BlankMetadata;
    }

    /** `paginateMetadataList`: show the current page's window of the list. */
    method PaginateMetadataList()
      modifies this`paginatedMetadataList
      ensures paginatedMetadataList == Pagination.Page(metadataList, currentPage, itemsPerPage)
      ensures |paginatedMetadataList| <= itemsPerPage
      ensures multiset(paginatedMetadataList) <= multiset(metadataList)
    {
      var start := (currentPage - 1) * itemsPerPage;
      var end := start + itemsPerPage;
      paginatedMetadataList := Pagination.Slice(metadataList, start, end);
      Pagination.SliceWithin(metadataList, start, end);
    }

    /** `changePage`: move to any page number and show its window, which for
        a page from 1 on is the plain sub-list of that page, cut at the end
        of the list, and never more than `itemsPerPage` records. */
    method ChangePage(page: int)
      requires Valid()
      modifies this`currentPage, this`paginatedMetadataList
      ensures Valid() && currentPage == page
      ensures |paginatedMetadataList| <= itemsPerPage
      ensures page >= 1 ==>
                var n, lo, hi := |metadataList|, (page - 1) * itemsPerPage, page * itemsPerPage;
                paginatedMetadataList == metadataList[(if lo < n then lo else n)..(if hi < n then hi else n)]
    {
      currentPage := page;
      PaginateMetadataList();
      if page >= 1 {
        Pagination.PageWindow(metadataList, page, itemsPerPage);
      }
    }

    /** `totalPages`: the least number of pages that hold the whole list. */
    function TotalPages(): (r: nat)
      reads this
      ensures |metadataList| <= r * itemsPerPage < |metadataList| + itemsPerPage
      ensures r == 0 <==> metadataList == []
    {
      Pagination.TotalPages(|metadataList|, itemsPerPage)
    }

    /** `loadMetadata`: fetch the active or inactive records, as the filter
        says; on success show them from page 1, on failure change nothing. */
    method LoadMetadata(response: Fetch) returns (calls: seq<ServiceCall>)
      requires Valid()
      modifies this`metadataList, this`currentPage, this`paginatedMetadataList
      ensures Valid() && Loaded(response)
      ensures calls == [ListCall(showActive)]
    {
      calls := [ListCall(showActive)];
      if response.Fetched? {
        metadataList := response.data;
        currentPage := 1;
        PaginateMetadataList();
        Pagination.FirstPage(metadataList, itemsPerPage);
      }
    }

    /** `toggleActiveInactive`: flip the filter and load the matching list. */
    method ToggleActiveInactive(response: Fetch) returns (calls: seq<ServiceCall>)
      requires Valid()
      modifies this`showActive, this`metadataList, this`currentPage, this`paginatedMetadataList
      ensures Valid() && Loaded(response)
      ensures showActive == !old(showActive)
      ensures calls == [ListCall(showActive)]
    {
      showActive := !showActive;
      calls := LoadMetadata(response);
    }

    /** `addMetadata`: open the create form. */
    method AddMetadata()
      requires Valid()
      modifies this`showForm
      ensures Valid() && showForm
    {
      showForm := true;
    }

    /** `submitMetadata`: an empty URL only warns; otherwise the URL is sent
        for analysis, and on success the field is cleared and the list
        reloaded, while on failure the URL stays for a retry. */
    method SubmitMetadata(created: Outcome, response: Fetch) returns (calls: seq<ServiceCall>, notice: Notice)
      requires Valid()
      modifies this`newMetadataUrl, this`metadataList, this`currentPage, this`paginatedMetadataList
      ensures Valid()
      ensures old(newMetadataUrl) == "" ==> calls == [] && notice == Warning && unchanged(this)
      ensures old(newMetadataUrl) != "" && created.Failed? ==>
                && calls == [ServiceCall.AddMetadata(CreateRequest(old(newMetadataUrl)))]
                && notice == Error && unchanged(this)
      ensures old(newMetadataUrl) != "" && created.Succeeded? ==>
                && calls == [ServiceCall.AddMetadata(CreateRequest(old(newMetadataUrl))), ListCall(showActive)]
                && notice == Success && newMetadataUrl == "" && Loaded(response)
    {
      if newMetadataUrl == "" {
        return [], Warning;
      }
      var request := CreateRequest(newMetadataUrl);
      calls := [ServiceCall.AddMetadata(request)];
      if created.Succeeded? {
        newMetadataUrl := "";
        var reload := LoadMetadata(response);
        calls := calls + reload;
        notice := Success;
      } else {
        notice := Error;
      }
    }

    /** `confirmActivateMetadata`: activate only when the user accepts. */
    method ConfirmActivateMetadata(id: int, confirmed: bool, result: Outcome, response: Fetch)
      returns (calls: seq<ServiceCall>, notice: Notice)
      requires Valid()
      modifies this`metadataList, this`currentPage, this`paginatedMetadataList
      ensures Valid()
      ensures !confirmed ==> calls == [] && notice == NoNotice && unchanged(this)
      ensures confirmed && result.Succeeded? ==>
                && calls == [ServiceCall.ActivateMetadata(id), ListCall(showActive)]
                && notice == Success && Loaded(response)
      ensures confirmed && result.Failed? ==>
                calls == [ServiceCall.ActivateMetadata(id)] && notice == NoNotice && unchanged(this)
    {
      calls, notice := [], NoNotice;
      if confirmed {
        calls, notice := ActivateMetadata(id, result, response);
      }
    }

    /** `confirmDeactivateMetadata`: deactivate only when the user accepts. */
    method ConfirmDeactivateMetadata(id: int, confirmed: bool, result: Outcome, response: Fetch)
      returns (calls: seq<ServiceCall>, notice: Notice)
      requires Valid()
      modifies this`metadataList, this`currentPage, this`paginatedMetadataList
      ensures Valid()
      ensures !confirmed ==> calls == [] && notice == NoNotice && unchanged(this)
      ensures confirmed && result.Succeeded? ==>
                && calls == [ServiceCall.DeactivateMetadata(id), ListCall(showActive)]
                && notice == Success && Loaded(response)
      ensures confirmed && result.Failed? ==>
                calls == [ServiceCall.DeactivateMetadata(id)] && notice == NoNotice && unchanged(this)
    {
      calls, notice := [], NoNotice;
      if confirmed {
        calls, notice := DeactivateMetadata(id, result, response);
      }
    }

    /** `activateMetadata`: on success reload and report it; a failure is
        only logged, so the user is told nothing. */
    method ActivateMetadata(id: int, result: Outcome, response: Fetch)
      returns (calls: seq<ServiceCall>, notice: Notice)
      requires Valid()
      modifies this`metadataList, this`currentPage, this`paginatedMetadataList
      ensures Valid()
      ensures result.Succeeded? ==>
                calls == [ServiceCall.ActivateMetadata(id), ListCall(showActive)] && notice == Success && Loaded(response)
      ensures result.Failed? ==> calls == [ServiceCall.ActivateMetadata(id)] && notice == NoNotice && unchanged(this)
    {
      calls := [ServiceCall.ActivateMetadata(id)];
      notice := NoNotice;
      if result.Succeeded? {
        var reload := LoadMetadata(response);
        calls := calls + reload;
        notice := Success;
      }
    }

    /** `deactivateMetadata`: as activation, through the gateway's delete. */
    method DeactivateMetadata(id: int, result: Outcome, response: Fetch)
      returns (calls: seq<ServiceCall>, notice: Notice)
      requires Valid()
      modifies this`metadataList, this`currentPage, this`paginatedMetadataList
      ensures Valid()
      ensures result.Succeeded? ==>
                calls == [ServiceCall.DeactivateMetadata(id), ListCall(showActive)] && notice == Success && Loaded(response)
      ensures result.Failed? ==> calls == [ServiceCall.DeactivateMetadata(id)] && notice == NoNotice && unchanged(this)
    {
      calls := [ServiceCall.DeactivateMetadata(id)];
      notice := NoNotice;
      if result.Succeeded? {
        var reload := LoadMetadata(response);
        calls := calls + reload;
        notice := Success;
      }
    }

    /** `editMetadata`: open the first listed record with this id in the edit
        form, its date-time split into date and `HH:MM` time, and keep the
        record as it was for comparison. An id not in the list changes
        nothing, and so does a record whose date has no 'T' (splitting it
        throws before anything is assigned). */
    method EditMetadata(id: int)
      requires Valid()
      modifies this`selectedMetadata, this`originalMetadata, this`showEditForm
      ensures Valid()
      ensures var found := Edit.Find(metadataList, id);
              if found.Some? && 'T' in found.value.publicationDate then
                && selectedMetadata == Edit.EditBuffer(found.value)
                && originalMetadata == found.value
                && showEditForm
              else
                unchanged(this)
    {
      var found := Edit.Find(metadataList, id);
      if found.Some? {
        var metadata := found.value;
        if 'T' !in metadata.publicationDate {
          return;
        }
        selectedMetadata := Edit.EditBuffer(metadata);
        originalMetadata := metadata;
        showEditForm := true;
      }
    }

    /** `updateMetadata`: rejoin the date, stop with "no changes" when the
        buffer equals the snapshot, parse feeds then authors into the buffer
        and stop at the first that fails, then ask for confirmation; only an
        accepted confirmation sends the update, and only its success closes
        the form and reloads. The buffer keeps every step taken before an
        early return. */
    method UpdateMetadata(parse: Parser, confirmed: bool, result: Outcome, response: Fetch)
      returns (calls: seq<ServiceCall>, notice: Notice)
      requires Valid()
      modifies this`selectedMetadata, this`showEditForm
      modifies this`metadataList, this`currentPage, this`paginatedMetadataList
      ensures Valid()
      ensures var step := Edit.PrepareUpdate(parse, old(selectedMetadata), originalMetadata);
              && selectedMetadata == step.buffer
              && (calls != [] ==> confirmed && step.Ready? && calls[0] == ServiceCall.UpdateMetadata(step.buffer))
              && (step.NoChanges? ==> notice == Info)
              && (step.ParseFailure? ==> notice == Error)
              && (step.Ready? && !confirmed ==> notice == NoNotice)
              && (step.Ready? && confirmed ==> |calls| >= 1)
              && (step.Ready? && confirmed && result.Succeeded? ==>
                    && calls == [ServiceCall.UpdateMetadata(step.buffer), ListCall(showActive)]
                    && notice == Success && !showEditForm && Loaded(response))
              && (!(step.Ready? && confirmed && result.Succeeded?) ==>
                    && |calls| <= 1
                    && showEditForm == old(showEditForm)
                    && metadataList == old(metadataList)
                    && currentPage == old(currentPage)
                    && paginatedMetadataList == old(paginatedMetadataList))
              && (step.Ready? && confirmed && result.Failed? ==> notice == Error)
    {
      ghost var step := Edit.PrepareUpdate(parse, selectedMetadata, originalMetadata);
      calls, notice := [], NoNotice;
      selectedMetadata := selectedMetadata.(publicationDate :=
                            selectedMetadata.publicationDate + "T" + selectedMetadata.publicationTime);
      if selectedMetadata == originalMetadata {
        assert step.NoChanges? && selectedMetadata == step.buffer;
        notice := Info;
        return;
      }
      var feeds := Edit.ParseField(parse, selectedMetadata.feeds);
      if feeds.None? {
        assert step.ParseFailure? && selectedMetadata == step.buffer;
        notice := Error;
        return;
      }
      selectedMetadata := selectedMetadata.(feeds := Parsed(feeds.value));
      var authors := Edit.ParseField(parse, selectedMetadata.authors);
      if authors.None? {
        assert step.ParseFailure? && selectedMetadata == step.buffer;
        notice := Error;
        return;
      }
      selectedMetadata := selectedMetadata.(authors := Parsed(authors.value));
      assert step.Ready? && selectedMetadata == step.buffer;
      if !confirmed {
        return;
      }
      calls := [ServiceCall.UpdateMetadata(selectedMetadata)];
      if result.Succeeded? {
        var reload := LoadMetadata(response);
        calls := calls + reload;
        showEditForm := false;
        notice := Success;
      } else {
        notice := Error;
      }
    }
  }

  /** Toggling twice restores the filter, asking first for the other list
      and then for the original one. */
  method ToggleTwice(c: MetadataListComponent, first: Fetch, second: Fetch)
    returns (calls: seq<ServiceCall>)
    requires c.Valid()
    modifies c
    ensures c.Valid() && c.showActive == old(c.showActive)
    ensures calls == [ListCall(!old(c.showActive)), ListCall(old(c.showActive))]
  {
    var one := c.ToggleActiveInactive(first);
    var two := c.ToggleActiveInactive(second);
    calls := one + two;
  }

  /** Cancelling the update confirmation and submitting the same buffer
      again never sends an update, whatever the second answer: the first
      submit already replaced the feeds text by its parsed array. */
  method CancelThenResubmit(c: MetadataListComponent, parse: Parser, result: Outcome, response: Fetch)
    returns (calls: seq<ServiceCall>, notice: Notice)
    requires c.Valid()
    requires Edit.PrepareUpdate(parse, c.selectedMetadata, c.originalMetadata).Ready?
    modifies c
    ensures calls == [] && notice != Success
  {
    var _, _ := c.UpdateMetadata(parse, false, result, response);
    Edit.ResubmitNeverReady(parse, old(c.selectedMetadata), c.originalMetadata);
    calls, notice := c.UpdateMetadata(parse, true, result, response);
  }
}

=== FILE: display.dfy ===
/** The pure helpers the list template uses to render a record. */
module Display {
  import opened Types
  import Text

  const NoFeeds := "Sin Feeds"
  const InvalidFeeds := "Invalid feeds format"
  const NoAuthors := "Sin Autores"
  const InvalidAuthors := "Invalid authors format"
  const Ellipsis := "..."

  /** Longest feed link shown in full. */
  const FeedLinkMax := 30
  /** Longest author line shown in full. */
  const AuthorsMax := 22

  /** `truncateTitle`: a text no longer than `maxLength` is shown as it is;
      a longer one is cut to its first `maxLength` characters (none, for a
      negative bound, as `substring` clamps it) followed by an ellipsis. */
  function TruncateTitle(title: string, maxLength: int): (r: string)
    ensures |title| <= maxLength ==> r == title
    ensures |title| > maxLength ==>
              && |r| == (if maxLength < 0 then 0 else maxLength) + |Ellipsis|
              && r[..|r| - |Ellipsis|] <= title
              && r[|r| - |Ellipsis|..] == Ellipsis
  {
    if |title| > maxLength then Text.Prefix(title, maxLength) + Ellipsis else title
  }

  /** A feed entry whose `link` can be read: `feed.link.length` throws on
      a `null` entry and on an object without a `link`. */
  predicate HasLink(e: Entry)
  {
    e.Entry? && e.link.Some?
  }

  /** What `author.name` gives for an object, as `join` writes it: an absent
      name joins as empty text. */
  function Name(e: Entry): (r: string)
    requires e.Entry?
    ensures e.name.Some? ==> r == e.name.value
    ensures e.name.None? ==> r == ""
  {
    match e.name
    case Some(n) => n
    case None => ""
  }

  /** The names of parsed author objects, in order. */
  function Names(entries: seq<Entry>): (names: seq<string>)
    requires forall i :: 0 <= i < |entries| ==> entries[i].Entry?
    ensures |names| == |entries|
    ensures forall i :: 0 <= i < |entries| ==> names[i] == Name(entries[i])
  {
    seq(|entries|, i requires 0 <= i < |entries| => Name(entries[i]))
  }

  /** `displayFeeds`: a placeholder for empty text or the literal empty JSON
      array, another for text that does not parse or has an entry whose link
      cannot be read (the `map` throws inside the same `try`), and otherwise
      one line per parsed feed, its link cut at 30 characters. */
  function DisplayFeeds(parse: Parser, feeds: string): (r: seq<string>)
    ensures (feeds == "" || feeds == "[]") ==> r == [NoFeeds]
    ensures !(feeds == "" || feeds == "[]") && parse(feeds).None? ==> r == [InvalidFeeds]
    ensures !(feeds == "" || feeds == "[]") && parse(feeds).Some? &&
            (exists i :: 0 <= i < |parse(feeds).value| && !HasLink(parse(feeds).value[i])) ==>
              r == [InvalidFeeds]
    ensures !(feeds == "" || feeds == "[]") && parse(feeds).Some? &&
            (forall i :: 0 <= i < |parse(feeds).value| ==> HasLink(parse(feeds).value[i])) ==>
              var entries := parse(feeds).value;
              && |r| == |entries|
              && forall i :: 0 <= i < |r| ==>
                   && |r[i]| <= FeedLinkMax + |Ellipsis|
                   && r[i] == TruncateTitle(entries[i].link.value, FeedLinkMax)
  {
    if feeds == "" || feeds == "[]" then [NoFeeds]
    else match parse(feeds)
      case None => [InvalidFeeds]
      case Some(entries) =>
        if forall i :: 0 <= i < |entries| ==> HasLink(entries[i]) then
          seq(|entries|, i requires 0 <= i < |entries| && HasLink(entries[i]) =>
                TruncateTitle(entries[i].link.value, FeedLinkMax))
        else [InvalidFeeds]
  }

  /** `displayAuthors`: a placeholder for empty text or the literal empty
      JSON array, another for text that does not parse or holds a `null`
      entry (reading its `name` throws), and otherwise the names joined by
      ", ", cut at 22 characters. */
  function DisplayAuthors(parse: Parser, authors: string): (r: string)
    ensures (authors == "" || authors == "[]") ==> r == NoAuthors
    ensures !(authors == "" || authors == "[]") && parse(authors).None? ==> r == InvalidAuthors
    ensures !(authors == "" || authors == "[]") && parse(authors).Some? &&
            (exists i :: 0 <= i < |parse(authors).value| && parse(authors).value[i].Null?) ==>
              r == InvalidAuthors
    ensures !(authors == "" || authors == "[]") && parse(authors).Some? &&
            (forall i :: 0 <= i < |parse(authors).value| ==> parse(authors).value[i].Entry?) ==>
              var line := Text.Join(Names(parse(authors).value), ", ");
              && |r| <= AuthorsMax + |Ellipsis|
              && r == TruncateTitle(line, AuthorsMax)
  {
    if authors == "" || authors == "[]" then NoAuthors
    else match parse(authors)
      case None => InvalidAuthors
      case Some(entries) =>
        if forall i :: 0 <= i < |entries| ==> entries[i].Entry? then
          TruncateTitle(Text.Join(Names(entries), ", "), AuthorsMax)
        else InvalidAuthors
  }

  /** Feeds text that parses to no entries without being the literal "[]"
      (say, "[ ]") renders as no lines at all, not as the placeholder: the
      feed list is empty only in that case. */
  lemma FeedsEmptyOnlyForParsedEmptyList(parse: Parser, feeds: string)
    ensures DisplayFeeds(parse, feeds) == [] <==> !(feeds == "" || feeds == "[]") && parse(feeds) == Some([])
  {
  }

  /** Two authors whose joined names fit are shown joined by ", ". */
  lemma TwoShortAuthors(parse: Parser, authors: string)
    requires !(authors == "" || authors == "[]")
    requires parse(authors) == Some([Entry(None, Some("Ann")), Entry(None, Some("Bo"))])
    ensures DisplayAuthors(parse, authors) == "Ann, Bo"
  {
    var names := Names([Entry(None, Some("Ann")), Entry(None, Some("Bo"))]);
    assert names == ["Ann", "Bo"];
    assert Text.Join(names, ", ") == "Ann" + ", " + "Bo";
  }

  /** A feed link within the limit is shown in full. */
  lemma ShortFeedShownInFull(parse: Parser, feeds: string)
    requires !(feeds == "" || feeds == "[]")
    requires parse(feeds) == Some([Entry(Some("http://a.com"), None)])
    ensures DisplayFeeds(parse, feeds) == ["http://a.com"]
  {
  }

  /** A parsed feed object without a `link` (`[{"url": "http://a.com"}]`)
      makes the whole list the invalid-format placeholder. */
  lemma LinklessFeedIsInvalid(parse: Parser, feeds: string, url: string)
    requires !(feeds == "" || feeds == "[]")
    requires parse(feeds) == Some([Entry(Some(url), None), Entry(None, None)])
    ensures DisplayFeeds(parse, feeds) == [InvalidFeeds]
  {
    assert !HasLink(parse(feeds).value[1]);
  }
}

=== FILE: edit.dfy ===
/** The edit buffer: opening a record splits its date-time in two for the
    form, submitting rejoins it and decides whether an update may be sent. */
module Edit {
  import opened Types
  import Text

  /** Length of the `HH:MM` time the form edits. */
  const TimeLength := 5

  /** `formatDate`: `s.split('T')[0]`, the text before the first 'T' (all of
      `s` when it has none). */
  function FormatDate(s: string): (r: string)
    ensures r <= s && 'T' !in r
    ensures 'T' in s ==> |r| == Text.FirstIndex(s, 'T')
    ensures 'T' !in s ==> r == s
  {
    var parts := Text.Split(s, 'T');
    if 'T' in s then
      Text.SplitAtFirst(s, 'T');
      parts[0]
    else
      parts[0]
  }

  /** `formatTime`: `s.split('T')[1].substring(0, 5)`, the longest text of
      at most five characters without a 'T' that follows the first 'T'.
      Without a 'T', `formatTime` reads a piece the split does not have and
      throws, so the caller must rule that out. */
  function FormatTime(s: string): (r: string)
    requires 'T' in s
    ensures |r| <= TimeLength && 'T' !in r
    ensures r <= s[Text.FirstIndex(s, 'T') + 1..]
    ensures var rest := s[Text.FirstIndex(s, 'T') + 1..];
            |r| == TimeLength || |r| == |rest| || rest[|r|] == 'T'
  {
    var parts := Text.Split(s, 'T');
    Text.SplitAtFirst(s, 'T');
    assert parts[1..][0] == parts[1];
    var rest := s[Text.FirstIndex(s, 'T') + 1..];
    assert Text.Join(parts[1..], "T") == rest;
    assert |parts[1]| == |rest| || rest[|parts[1]|] == 'T' by {
      if |parts| > 2 {
        assert parts[1..][1..] == parts[2..];
      }
    }
    Text.Prefix(parts[1], TimeLength)
  }

  /** Splitting a date-time and joining the halves again with 'T' gives the
      original back exactly when it has one 'T' and at most five characters
      after it; a time with seconds ("2024-05-01T10:30:00") loses them. */
  lemma DateTimeRoundTrip(s: string)
    requires 'T' in s
    ensures var i := Text.FirstIndex(s, 'T');
            FormatDate(s) + "T" + FormatTime(s) == s <==>
              'T' !in s[i + 1..] && |s| - (i + 1) <= TimeLength
  {
    var i := Text.FirstIndex(s, 'T');
    var p := Text.Split(s, 'T');
    Text.SplitAtFirst(s, 'T');
    var after := s[i + 1..];
    assert s == s[..i] + "T" + after;
    assert Text.Join(p[1..], "T") == after;
    if 'T' !in after && |after| <= TimeLength {
      assert after == p[1];
    }
  }

  /** `Array.prototype.find` on the list by id: the first record with that
      id, or `None` when there is none. */
  function Find(list: seq<Metadata>, id: int): (r: Option<Metadata>)
    ensures r.None? <==> forall j :: 0 <= j < |list| ==> list[j].id != id
    ensures r.Some? ==> exists i :: 0 <= i < |list| && list[i] == r.value && r.value.id == id &&
                                    forall j :: 0 <= j < i ==> list[j].id != id
  {
    if |list| == 0 then None
    else if list[0].id == id then Some(list[0])
    else
      var r := Find(list[1..], id);
      if r.Some? then
        var i :| 0 <= i < |list| - 1 && list[1..][i] == r.value && r.value.id == id &&
                 forall j :: 0 <= j < i ==> list[1..][j].id != id;
        assert list[i + 1] == r.value;
        assert forall j :: 1 <= j < i + 1 ==> list[j].id == list[1..][j - 1].id;
        r
      else
        assert forall j :: 1 <= j < |list| ==> list[j] == list[1..][j - 1];
        r
  }

  /** The buffer `editMetadata` opens for a record: the record with its
      date-time split into date and `HH:MM` time. */
  function EditBuffer(m: Metadata): (r: Metadata)
    requires 'T' in m.publicationDate
    ensures r.(publicationDate := m.publicationDate, publicationTime := m.publicationTime) == m
    ensures r.publicationDate + "T" <= m.publicationDate && 'T' !in r.publicationDate
    ensures var rest := m.publicationDate[|r.publicationDate| + 1..];
            && r.publicationTime <= rest && |r.publicationTime| <= TimeLength && 'T' !in r.publicationTime
            && (|r.publicationTime| == TimeLength || |r.publicationTime| == |rest| || rest[|r.publicationTime|] == 'T')
  {
    m.(publicationDate := FormatDate(m.publicationDate),
       publicationTime := FormatTime(m.publicationDate))
  }

  /** The first thing a submit does: rejoin date and time into the date,
      leaving every other field as it is. */
  function Rejoin(m: Metadata): (r: Metadata)
    ensures r.(publicationDate := m.publicationDate) == m
    ensures m.publicationDate + "T" <= r.publicationDate
    ensures |r.publicationDate| == |m.publicationDate| + 1 + |m.publicationTime|
    ensures r.publicationDate[|m.publicationDate| + 1..] == m.publicationTime
  {
    m.(publicationDate := m.publicationDate + "T" + m.publicationTime)
  }

  /** Rejoining a date without 'T' and splitting again gives the date back,
      and gives the time back too when it has at most five characters and
      no 'T': the converse of `DateTimeRoundTrip`. */
  lemma RejoinThenSplit(m: Metadata)
    requires 'T' !in m.publicationDate
    ensures FormatDate(Rejoin(m).publicationDate) == m.publicationDate
    ensures 'T' !in m.publicationTime && |m.publicationTime| <= TimeLength ==>
              FormatTime(Rejoin(m).publicationDate) == m.publicationTime
  {
    var d := Rejoin(m).publicationDate;
    Text.FirstIndexUnique(d, 'T', |m.publicationDate|);
    assert d[|m.publicationDate| + 1..] == m.publicationTime;
  }

  /** `JSON.parse` of a buffer field. A field already overwritten by its
      parsed array is stringified before parsing ("[object Object]..." or
      the empty string), which never parses. */
  function ParseField(parse: Parser, f: Field): (r: Option<seq<Entry>>)
    ensures f.Raw? ==> r == parse(f.text)
    ensures f.Parsed? ==> r.None?
  {
    match f
    case Raw(text) => parse(text)
    case Parsed(_) => None
  }

  /** Where a submit of the edit form stops, with the buffer as it is left. */
  datatype Submission =
    | NoChanges(buffer: Metadata)     // equal to the snapshot: nothing to send
    | ParseFailure(buffer: Metadata)  // feeds or authors did not parse
    | Ready(buffer: Metadata)         // to be sent once the user confirms

  /** The checks `updateMetadata` runs before asking for confirmation: rejoin
      the date, compare with the snapshot, then parse feeds and authors into
      the buffer one after the other. */
  function PrepareUpdate(parse: Parser, selected: Metadata, original: Metadata): (r: Submission)
    ensures r.buffer.publicationDate == selected.publicationDate + "T" + selected.publicationTime
    ensures r.buffer.(feeds := selected.feeds, authors := selected.authors) == Rejoin(selected)
    ensures r.NoChanges? <==> Rejoin(selected) == original
    ensures r.Ready? <==>
              && Rejoin(selected) != original
              && ParseField(parse, selected.feeds).Some?
              && ParseField(parse, selected.authors).Some?
    ensures r.Ready? ==>
              && r.buffer.feeds == Parsed(ParseField(parse, selected.feeds).value)
              && r.buffer.authors == Parsed(ParseField(parse, selected.authors).value)
    ensures r.NoChanges? ==> r.buffer == Rejoin(selected)
    ensures r.ParseFailure? && ParseField(parse, selected.feeds).Some? ==>
              r.buffer.feeds == Parsed(ParseField(parse, selected.feeds).value)
    ensures r.ParseFailure? ==>
              && r.buffer.authors == selected.authors
              && (r.buffer.feeds == selected.feeds <==> ParseField(parse, selected.feeds).None?)
  {
    var joined := Rejoin(selected);
    if joined == original then NoChanges(joined)
    else match ParseField(parse, joined.feeds)
      case None => ParseFailure(joined)
      case Some(feeds) =>
        var withFeeds := joined.(feeds := Parsed(feeds));
        match ParseField(parse, withFeeds.authors)
        case None => ParseFailure(withFeeds)
        case Some(authors) => Ready(withFeeds.(authors := Parsed(authors)))
  }

  /** Opening a record and submitting the form untouched reports "no
      changes" exactly when the stored date-time survives the split (one
      'T', at most five characters after it) and the record's own time field
      already holds that `HH:MM`; any other record is sent on as changed. */
  lemma UntouchedSubmitIsNoChange(parse: Parser, m: Metadata)
    requires 'T' in m.publicationDate
    ensures var d := m.publicationDate;
            var i := Text.FirstIndex(d, 'T');
            PrepareUpdate(parse, EditBuffer(m), m).NoChanges? <==>
              && 'T' !in d[i + 1..] && |d| - (i + 1) <= TimeLength
              && m.publicationTime == FormatTime(d)
  {
    DateTimeRoundTrip(m.publicationDate);
  }

  /** Once a submit has written the parsed feeds into the buffer, submitting
      that buffer again never gets to the update call: either it now equals
      the snapshot or its feeds no longer parse. This is the state a
      cancelled confirmation or a failed update leaves behind. */
  lemma ResubmitNeverReady(parse: Parser, selected: Metadata, original: Metadata)
    requires PrepareUpdate(parse, selected, original).Ready?
    ensures !PrepareUpdate(parse, PrepareUpdate(parse, selected, original).buffer, original).Ready?
  {
  }

  /** `n` copies of `block`, one after the other. */
  function Repeat(block: string, n: nat): (r: string)
    ensures |r| == n * |block|
    decreases n
  {
    if n == 0 then []
    else
      var rest := Repeat(block, n - 1);
      assert n * |block| == |block| + (n - 1) * |block|;
      block + rest
  }

  /** The buffer after `n` more submits of the form that stop early: the
      time is kept and the date gets one more "T" and time per submit. */
  function Resubmitted(parse: Parser, buffer: Metadata, original: Metadata, n: nat): (r: Metadata)
    ensures r.publicationTime == buffer.publicationTime
    ensures r.publicationDate == buffer.publicationDate + Repeat("T" + buffer.publicationTime, n)
    decreases n
  {
    if n == 0 then buffer
    else
      var next := PrepareUpdate(parse, buffer, original).buffer;
      var block := "T" + buffer.publicationTime;
      SubmitAppendsTime(parse, buffer, original);
      var r := Resubmitted(parse, next, original, n - 1);
      assert Repeat(block, n) == block + Repeat(block, n - 1);
      assert r.publicationDate == buffer.publicationDate + Repeat(block, n) by {
        assert r.publicationDate == (buffer.publicationDate + block) + Repeat(block, n - 1);
      }
      r
  }

  /** One submit keeps the time and appends "T" and the time to the date. */
  lemma SubmitAppendsTime(parse: Parser, buffer: Metadata, original: Metadata)
    ensures var next := PrepareUpdate(parse, buffer, original).buffer;
            && next.publicationTime == buffer.publicationTime
            && next.publicationDate == buffer.publicationDate + ("T" + buffer.publicationTime)
  {
    var next := PrepareUpdate(parse, buffer, original).buffer;
    assert next.(feeds := buffer.feeds, authors := buffer.authors).publicationTime == next.publicationTime;
  }

  /** A buffer whose feeds already hold their parsed array keeps them on
      every submit, so no number of further submits gets to the update call. */
  lemma {:induction false} ParsedFeedsNeverReady(parse: Parser, buffer: Metadata, original: Metadata, n: nat)
    requires buffer.feeds.Parsed?
    ensures Resubmitted(parse, buffer, original, n).feeds.Parsed?
    ensures !PrepareUpdate(parse, Resubmitted(parse, buffer, original, n), original).Ready?
    decreases n
  {
    if n > 0 {
      ParsedFeedsNeverReady(parse, PrepareUpdate(parse, buffer, original).buffer, original, n - 1);
    }
  }
}

=== FILE: pagination.dfy ===
/** Client-side pagination of the fetched list: `Array.prototype.slice`
    with JavaScript's index rules, the page window it yields, and the
    number of pages. */
module Pagination {

  /** How `slice` reads one of its bounds against a list of length `len`:
      a negative bound counts back from the end, and either kind is clamped
      into `0..len`. */
  function ClampIndex(i: int, len: nat): (r: nat)
    ensures 0 <= i <= len ==> r == i
    ensures i > len ==> r == len
    ensures i < 0 && len + i >= 0 ==> r == len + i
    ensures len + i < 0 ==> r == 0
  {
    if i < 0 then (if len + i < 0 then 0 else len + i)
    else if i < len then i else len
  }

  /** `s.slice(start, end)`: the elements between the two clamped bounds,
      or nothing when they cross. */
  function Slice<T>(s: seq<T>, start: int, end: int): (r: seq<T>)
    ensures var a, b := ClampIndex(start, |s|), ClampIndex(end, |s|);
            && |r| == (if a < b then b - a else 0)
            && r <= s[a..]
  {
    var a, b := ClampIndex(start, |s|), ClampIndex(end, |s|);
    if a < b then s[a..b] else []
  }

  /** The window `paginateMetadataList` takes for a (1-based) page. It never
      holds more than `perPage` records, for every page number, including
      zero, negative and past-the-end ones. */
  function Page<T>(s: seq<T>, page: int, perPage: nat): (r: seq<T>)
    ensures |r| <= perPage
  {
    var start := (page - 1) * perPage;
    SliceLength(s, start, start + perPage);
    Slice(s, start, start + perPage)
  }

  /** `Math.ceil(n / perPage)`, in integer arithmetic: the least number of
      pages of `perPage` items that hold `n` items. */
  function TotalPages(n: nat, perPage: nat): (r: nat)
    requires perPage > 0
    ensures n <= r * perPage < n + perPage
    ensures r == 0 <==> n == 0
  {
    (n + perPage - 1) / perPage
  }

  /** A slice never holds more elements than its bounds are apart, when
      the end is not before the start. */
  lemma SliceLength<T>(s: seq<T>, start: int, end: int)
    requires start <= end
    ensures |Slice(s, start, end)| <= end - start
  {
    var a, b := ClampIndex(start, |s|), ClampIndex(end, |s|);
    if a < b {
      assert |Slice(s, start, end)| == b - a;
      assert b - a <= end - start;
    }
  }

  /** Every element of a slice is an element of the list. */
  lemma SliceWithin<T>(s: seq<T>, start: int, end: int)
    ensures multiset(Slice(s, start, end)) <= multiset(s)
  {
    var a, b := ClampIndex(start, |s|), ClampIndex(end, |s|);
    if a < b {
      assert s == s[..a] + s[a..b] + s[b..];
    }
  }

  /** For a page from 1 upwards the window is the plain sub-list from
      `(page-1)*perPage` to `page*perPage`, each end clamped to the list. */
  lemma PageWindow<T>(s: seq<T>, page: int, perPage: nat)
    requires page >= 1
    ensures var lo, hi := (page - 1) * perPage, page * perPage;
            Page(s, page, perPage) ==
              s[(if lo < |s| then lo else |s|)..(if hi < |s| then hi else |s|)]
  {
    var lo := (page - 1) * perPage;
    assert lo >= 0 by { MulNonNegative(page - 1, perPage); }
    assert lo + perPage == page * perPage;
  }

  /** Page 1 is the first `perPage` records, or the whole list if shorter. */
  lemma FirstPage<T>(s: seq<T>, perPage: nat)
    ensures Page(s, 1, perPage) == s[..if |s| < perPage then |s| else perPage]
  {
    PageWindow(s, 1, perPage);
  }

  /** Every page before the last one is full. */
  lemma PageBeforeLastIsFull<T>(s: seq<T>, page: int, perPage: nat)
    requires perPage > 0 && 1 <= page < TotalPages(|s|, perPage)
    ensures |Page(s, page, perPage)| == perPage
  {
    var total := TotalPages(|s|, perPage);
    var lo, hi := (page - 1) * perPage, page * perPage;
    assert hi < |s| by {
      MulMonotone(page, total - 1, perPage);
      MulPred(total, perPage);
    }
    assert hi == lo + perPage && lo >= 0 by {
      MulPred(page, perPage);
      MulNonNegative(page - 1, perPage);
    }
    PageWindow(s, page, perPage);
  }

  /** The last page holds the remainder, which is never empty. */
  lemma LastPageHoldsRemainder<T>(s: seq<T>, perPage: nat)
    requires perPage > 0 && |s| > 0
    ensures var total := TotalPages(|s|, perPage);
            0 < |Page(s, total, perPage)| == |s| - (total - 1) * perPage
  {
    var total := TotalPages(|s|, perPage);
    PageWindow(s, total, perPage);
    MulPred(total, perPage);
  }

  /** Pages past the last one are empty. */
  lemma PageAfterLastIsEmpty<T>(s: seq<T>, page: int, perPage: nat)
    requires perPage > 0 && page > TotalPages(|s|, perPage)
    ensures Page(s, page, perPage) == []
  {
    var total := TotalPages(|s|, perPage);
    PageWindow(s, page, perPage);
    MulMonotone(total, page - 1, perPage);
  }

  /** Every index of the list falls in the window of page `i / perPage + 1`,
      a page between 1 and the number of pages, at its offset there;
      `PageNumberUnique` says no other page's window holds it. */
  lemma IndexInOnePage<T>(s: seq<T>, perPage: nat, i: nat)
    requires perPage > 0 && i < |s|
    ensures var p := i / perPage + 1;
            && 1 <= p <= TotalPages(|s|, perPage)
            && (p - 1) * perPage <= i < p * perPage
            && Page(s, p, perPage)[i % perPage] == s[i]
  {
    var p := i / perPage + 1;
    var total := TotalPages(|s|, perPage);
    var lo, hi := (p - 1) * perPage, p * perPage;
    assert lo + i % perPage == i && hi == lo + perPage by {
      MulPred(p, perPage);
    }
    assert p <= total by {
      if p > total {
        MulMonotone(total, p - 1, perPage);
      }
    }
    assert Page(s, p, perPage)[i % perPage] == s[i] by {
      PageWindow(s, p, perPage);
    }
  }

  /** Among pages from 1 up, the only one whose window holds index `i` is
      page `i / perPage + 1`. */
  lemma PageNumberUnique<T>(s: seq<T>, perPage: nat, i: nat, q: int)
    requires perPage > 0 && q >= 1
    requires (q - 1) * perPage <= i < (q - 1) * perPage + |Page(s, q, perPage)|
    ensures q == i / perPage + 1
  {
    var p := i / perPage + 1;
    assert (p - 1) * perPage <= i < p * perPage by {
      MulPred(p, perPage);
    }
    assert i < q * perPage by {
      MulPred(q, perPage);
    }
    if q < p {
      MulMonotone(q, p - 1, perPage);
    } else if q > p {
      MulMonotone(p, q - 1, perPage);
    }
  }

  /** Page 0 is empty: its window ends at index 0. */
  lemma PageZeroIsEmpty<T>(s: seq<T>, perPage: nat)
    ensures Page(s, 0, perPage) == []
  {
  }

  lemma MulNonNegative(a: int, b: int)
    requires a >= 0 && b >= 0
    ensures a * b >= 0
  {
  }

  lemma MulPred(a: int, k: int)
    ensures (a - 1) * k == a * k - k
  {
  }

  lemma MulMonotone(a: int, b: int, k: nat)
    requires a <= b
    ensures a * k <= b * k
  {
    assert b * k - a * k == (b - a) * k;
    MulNonNegative(b - a, k);
  }
}

=== FILE: text.dfy ===
/** The JavaScript string operations the view relies on: `split` on one
    character, `join`, and `substring(0, n)`. */
module Text {

  /** `parts.join(sep)`: the parts with `sep` between consecutive ones; the
      text starts with the first part, and no parts give the empty text. */
  function Join(parts: seq<string>, sep: string): (r: string)
    ensures |parts| == 0 ==> r == ""
    ensures |parts| >= 1 ==> parts[0] <= r
  {
    if |parts| == 0 then ""
    else if |parts| == 1 then parts[0]
    else parts[0] + sep + Join(parts[1..], sep)
  }

  /** `s.split(sep)` for a one-character separator: the maximal pieces of `s`
      free of `sep`, in order, so that joining them with `sep` gives `s`
      back. There is always at least one piece, and more than one exactly
      when `sep` occurs in `s`. */
  function Split(s: string, sep: char): (parts: seq<string>)
    ensures |parts| >= 1
    ensures Join(parts, [sep]) == s
    ensures forall i :: 0 <= i < |parts| ==> sep !in parts[i]
    ensures |parts| > 1 <==> sep in s
    decreases |s|
  {
    if |s| == 0 then [""]
    else
      var rest := Split(s[1..], sep);
      assert s == [s[0]] + s[1..];
      assert sep in s <==> s[0] == sep || sep in s[1..];
      if s[0] == sep then
        var parts := [""] + rest;
        assert parts[1..] == rest;
        assert Join(parts, [sep]) == [sep] + Join(rest, [sep]);
        parts
      else
        var head := [s[0]] + rest[0];
        var parts := [head] + rest[1..];
        assert parts[1..] == rest[1..];
        assert sep !in head;
        assert Join(parts, [sep]) == [s[0]] + Join(rest, [sep]);
        parts
  }

  /** The position of the first occurrence of `c` in `s`. */
  function FirstIndex(s: string, c: char): (i: nat)
    requires c in s
    ensures i < |s| && s[i] == c && c !in s[..i]
  {
    if s[0] == c then 0
    else
      assert s == [s[0]] + s[1..];
      1 + FirstIndex(s[1..], c)
  }

  /** `s.substring(0, n)`: JavaScript clamps `n` into `0..|s|`. */
  function Prefix(s: string, n: int): (r: string)
    ensures r <= s
    ensures |r| == if n < 0 then 0 else if n < |s| then n else |s|
  {
    if n < 0 then "" else if n < |s| then s[..n] else s
  }

  /** Any position holding `c` with no `c` before it is the first one. */
  lemma FirstIndexUnique(s: string, c: char, k: nat)
    requires k < |s| && s[k] == c && c !in s[..k]
    ensures FirstIndex(s, c) == k
  {
  }

  /** The first piece of `s.split(c)` is the text before the first `c`, and
      the remaining pieces rejoin to the text after it. */
  lemma SplitAtFirst(s: string, c: char)
    requires c in s
    ensures Split(s, c)[0] == s[..FirstIndex(s, c)]
    ensures Join(Split(s, c)[1..], [c]) == s[FirstIndex(s, c) + 1..]
  {
    var p := Split(s, c);
    var k := |p[0]|;
    assert s == p[0] + [c] + Join(p[1..], [c]);
    assert s[..k] == p[0];
    assert s[k] == c;
    FirstIndexUnique(s, c, k);
    assert s[k + 1..] == Join(p[1..], [c]);
  }

  /** Splitting text that starts with a separator-free piece and a
      separator gives that piece, then the pieces of the rest. */
  lemma {:induction false} SplitAfterPiece(piece: string, sep: char, rest: string)
    requires sep !in piece
    ensures Split(piece + [sep] + rest, sep) == [piece] + Split(rest, sep)
    decreases |piece|
  {
    var s := piece + [sep] + rest;
    if piece == [] {
      assert s[1..] == rest;
    } else {
      assert s[1..] == piece[1..] + [sep] + rest;
      SplitAfterPiece(piece[1..], sep, rest);
      assert [s[0]] + piece[1..] == piece;
    }
  }

  /** `split` undoes `join`: joining separator-free pieces with the
      separator and splitting the result gives the pieces back. */
  lemma {:induction false} SplitJoin(parts: seq<string>, sep: char)
    requires |parts| >= 1
    requires forall i :: 0 <= i < |parts| ==> sep !in parts[i]
    ensures Split(Join(parts, [sep]), sep) == parts
  {
    if |parts| == 1 {
      var p := Split(parts[0], sep);
      assert |p| == 1;
    } else {
      SplitJoin(parts[1..], sep);
      SplitAfterPiece(parts[0], sep, Join(parts[1..], [sep]));
      assert [parts[0]] + parts[1..] == parts;
    }
  }
}

=== FILE: types.dfy ===
/** Values exchanged between the metadata list view and its backend gateway. */
module Types {

  datatype Option<T> = None | Some(value: T)

  /** One element of a parsed `feeds` or `authors` JSON array: a `null`, or
      an object whose `link` (read for feeds) and `name` (read for authors)
      are each a string or absent. */
  datatype Entry = Null | Entry(link: Option<string>, name: Option<string>)

  /** `JSON.parse` restricted to what the view reads back: a list of entries,
      or `None` where the parse throws. It is a parameter of every member that
      parses, since real JSON parsing is not part of this model. */
  type Parser = string -> Option<seq<Entry>>

  /** The `feeds` and `authors` fields arrive as serialized text; submitting
      the edit form overwrites them, in place, with the parsed arrays. */
  datatype Field = Raw(text: string) | Parsed(entries: seq<Entry>)

  /** A metadata record (`IMetadata`). `publicationTime` is only meaningful
      in the edit buffer, where the date-time is split in two. */
  datatype Metadata = Metadata(
    id: int,
    title: string,
    publicationDate: string,
    publicationTime: string,
    imageUrl: string,
    feeds: Field,
    authors: Field,
    active: string)

  /** The blank record the component starts with in its edit buffer. */
  const BlankMetadata: Metadata := Metadata(0, "", "", "", "", Raw(""), Raw(""), "")

  /** `ICreateMetadata`: the body of the "analyze" request. */
  datatype Features = Features(metadata: map<string, string>)
  datatype CreateMetadata = CreateMetadata(url: string, features: Features)

  /** The six gateway operations, each one HTTP round trip. */
  datatype ServiceCall =
    | FindAllActive
    | FindAllInactive
    | AddMetadata(request: CreateMetadata)
    | UpdateMetadata(record: Metadata)
    | ActivateMetadata(id: int)
    | DeactivateMetadata(id: int)

  /** How a list request completes: with the records, or with an error. */
  datatype Fetch = Fetched(data: seq<Metadata>) | FetchFailed

  /** How a state-changing request completes. */
  datatype Outcome = Succeeded | Failed

  /** The kind of alert shown to the user at the end of an action
      (the confirmation dialogs are not notices: they are inputs). */
  datatype Notice = NoNotice | Info | Success | Warning | Error
}
